=== FILE: README.md ===
# Plant monitor: decision engine and stores

This project models the central server of a plant-monitoring system in Dafny.
Garden nodes report moisture, temperature, humidity and light level. The server
keeps per-plant settings derived from plant-type profiles. It decides for each
plant whether to run the water pump and the grow light, and it logs each
watering with the moisture before and after it.

The model covers three parts:

- **Decision engine** (`plant_controller.dfy`, module `PlantController`).
  Readings and settings are dynamic records (`map<string, Value>`), read with
  `.get(key, default)`. Python's `<` and `<=` raise TypeError on values they
  cannot order, and that error aborts the whole batch. The rule-based loop is
  proved against `RuleBasedOutcome`. The model-based loop is proved against
  `MlDecision`.
- **Settings store** (`db_handler.dfy`, module `DbHandler`). The class
  `DataBaseHandler` holds the profile table, the per-plant settings table and
  the sensor-reading table as fields. `set_plant_settings` looks up a profile,
  anchors the schedule to today's date, applies the overrides and upserts the
  row. `get_plant_settings` reads a row back as a record.
- **Watering-event log** (`ml_db_handler.dfy`, module `MlDbHandler`). The class
  `MLDataBaseHandler` holds the events table and its AUTOINCREMENT sequence.

Shared pieces:

- `values.dfy` (`PyValues`): Python values, `dict.get`, truthiness and ordering.
- `datetimes.dfy` (`DateTimes`): `strftime` and `strptime` for the format
  `"%Y-%m-%d %H:%M:%S"`.

Two further modules hold the results:

- `integration.dfy` (`Integration`) proves what happens when the controller
  reads the records the store produces. The store writes the schedule under
  `light_schedule_*` but returns it under `lighting_schedule_*`. No stored
  record has the `water_pump_active` key the model-based strategy reads. So a
  stored record never turns the light on and never runs the pump under the
  model-based strategy. A freshly resolved record, by contrast, can turn the
  light on: inside its schedule, when the level is below the threshold.
- `scenarios.dfy` (`Scenarios`) restates the repository's test cases as lemmas
  and methods.

The clock is always a parameter:

- The controller takes `now` as an instant in microseconds.
- The store methods take `now` as a `DateTime`. It gives the store's "today"
  and the stored timestamps.

## Model

| member | source | states |
|---|---|---|
| PyValues.Get | Central_Server/plant_controller.py:34 | `d.get(key, default)`: the stored value when the key is present, otherwise the default |
| PyValues.Less | Central_Server/plant_controller.py:40 | `a < b` raises TypeError exactly when the operands are not both numbers (booleans count as 0/1) or both strings; otherwise it is the numeric order or the lexicographic string order |
| PyValues.LessOrEqual | Central_Server/plant_controller.py:34 | `a <= b` raises exactly when `a < b` does; otherwise it is numeric `<=`, or "lexicographically below or equal" for strings |
| PyValues.StrLessIrreflexive | Central_Server/plant_controller.py:40 | no string is lexicographically below itself |
| PyValues.ComparisonReflexive | Central_Server/plant_controller.py:34 | for any orderable value, `x < x` is False and `x <= x` is True |
| DateTimes.DaysInMonth | Central_Server/plant_controller.py:38 | every month that strptime admits has 28 to 31 days |
| DateTimes.Pad2 | Central_Server/db_handler.py:104 | two zero-padded digits whose decimal value is the number |
| DateTimes.Pad4 | Central_Server/db_handler.py:104 | four zero-padded digits whose decimal value is the number |
| DateTimes.FormatDate | Central_Server/db_handler.py:104 | today's date text is ten characters: the year as four digits, a dash, the month as two digits, a dash, the day as two digits, each field reading back as the date's own value |
| DateTimes.ParseFields | Central_Server/plant_controller.py:38-39 | strptime succeeds only on the text form of a valid datetime, and the datetime it yields formats back to exactly the input |
| DateTimes.FormatInvertsParse | Central_Server/plant_controller.py:38-39 | formatting the fields read from a well-shaped string gives that string back |
| DateTimes.FormatDateInvertsParse | Central_Server/plant_controller.py:38 | the same, for the date part |
| DateTimes.FormatTimeInvertsParse | Central_Server/plant_controller.py:38 | the same, for the time-of-day part |
| DateTimes.ParseDateTime | Central_Server/plant_controller.py:38-39 | strptime yields an instant exactly when the parse succeeds, only on 19-character input, and the instant is that of the parsed datetime at microsecond 0 |
| DateTimes.TimestampOrder | Central_Server/plant_controller.py:40 | on valid datetimes, timestamp order is the lexicographic order of (year, month, day, hour, minute, second), and equal timestamps mean equal datetimes, so the schedule-window test compares datetimes as Python does |
| DateTimes.MixedRadixDigit | Central_Server/plant_controller.py:40 | one mixed-radix digit orders and equates like the pair of its high part and digit |
| DateTimes.ParseFormatted | Central_Server/plant_controller.py:38-39 | parsing the strftime form of any valid datetime gives that datetime back (the other direction of the round trip) |
| PlantController.NeedsWater | Central_Server/plant_controller.py:33-34 | with numeric values the plant needs water iff moisture <= threshold, where a missing moisture is 0 and a missing threshold is 100; TypeError exactly when the two cannot be ordered |
| PlantController.NeedsLight | Central_Server/plant_controller.py:36-43 | either schedule bound missing or unparseable (the start first, then the end) gives False rather than an error; True only when both bounds parse, start <= now <= end, and light level < threshold |
| PlantController.OutsideScheduleNoLight | Central_Server/plant_controller.py:40 | outside a parsed schedule the answer is False, whatever the light level |
| PlantController.InsideScheduleLightBelowThreshold | Central_Server/plant_controller.py:40 | inside a parsed schedule, with numeric values, light is needed iff level < threshold |
| PlantController.LightAtThresholdNoLight | Central_Server/plant_controller.py:40 | with string bounds and numeric values, a level at or above the threshold never needs light |
| PlantController.CreatePlantDecision | Central_Server/plant_controller.py:45-56 | the decision carries the given plant id; the pump and light flags are the two needs; the duration is the settings' watering_duration (default 0) when water is needed and 0 otherwise |
| PlantController.PlantDecision | Central_Server/plant_controller.py:19-26 | a failing pair always fails with TypeError |
| PlantController.PlantDecisionFields | Central_Server/plant_controller.py:19-26 | a pair's decision exists iff neither test raises; it carries the reading's plant id, pump = needs-water (duration = watering_duration if so, else 0), and light = needs-light |
| PlantController.PairResults | Central_Server/plant_controller.py:17 | the pairs are zipped by position: as many as the shorter list, pair i from reading i and settings i |
| PlantController.GetRuleBasedDecisions | Central_Server/plant_controller.py:13-31 | the result is either one decision per zipped pair, in input order, or the error of the first pair that raises |
| PlantController.BatchOutcomeUnique | Central_Server/plant_controller.py:17-29 | a batch whose first error aborts it has exactly one outcome for given per-pair results |
| PlantController.RuleBasedOutcomeUnique | Central_Server/plant_controller.py:13-31 | the rule-based outcome is a function of the readings, the settings and the time |
| PlantController.BatchOkIffNoPairFails | Central_Server/plant_controller.py:17-29 | a batch succeeds iff none of its pair results is an error |
| PlantController.RuleBasedOkIffNoPairFails | Central_Server/plant_controller.py:13-31 | the rule-based strategy returns decisions iff no pair raises |
| PlantController.MlDecision | Central_Server/plant_controller.py:60-73 | the model-based decision takes plant id, pump flag (`water_pump_active`, default False) and duration (default 0, unconditional) from the settings record, and the light from the plant's prediction (default False) |
| PlantController.MlPumpIgnoresPredictions | Central_Server/plant_controller.py:66-69 | the model-based pump decision is the same for any two prediction maps |
| PlantController.GetMlBasedAutomation | Central_Server/plant_controller.py:57-75 | one model-based decision per settings record, in order |
| PlantController.AnyMlEnabled | Central_Server/plant_controller.py:8 | true iff some settings record has a truthy `ml_enabled` |
| PlantController.GetControlDecisions | Central_Server/plant_controller.py:6-11 | the model-based strategy for the whole batch iff predictions are non-empty and some record has ML enabled; the rule-based outcome otherwise |
| DbHandler.DefaultProfiles | Central_Server/db_handler.py:62-73 | the installed profile rows are exactly herbs, vegetables, succulents, tropical and default, with the listed values |
| DbHandler.MissingReadingField | Central_Server/db_handler.py:150-153 | no field is reported iff moisture, temperature, humidity and light_level are all present; otherwise the reported field is the first absent one in that order, the order the insert reads them |
| DbHandler.ProfileFor | Central_Server/db_handler.py:89-101 | the profile of the requested type when the table has one, otherwise the "default" profile |
| DbHandler.ProfileSettings | Central_Server/db_handler.py:105-115 | the synthesised record has exactly the nine settings keys |
| DbHandler.Update | Central_Server/db_handler.py:118-119 | after `update` the record has the keys of both records; a key of the overrides takes the override's value, every other key keeps its value |
| DbHandler.ResolvedSettings | Central_Server/db_handler.py:104-119 | the returned record has all nine settings keys |
| DbHandler.RowOf | Central_Server/db_handler.py:121-134 | each of the nine columns of the written row holds the record's value under the matching key, schedule from `light_schedule_*` |
| DbHandler.KeyedAfterUpsert | Central_Server/db_handler.py:121-134 | INSERT OR REPLACE with a non-NULL plant id replaces or adds exactly that id's row and keeps every other row; with a NULL id the keyed rows are unchanged |
| DbHandler.UnkeyedAfterUpsert | Central_Server/db_handler.py:121-134 | NULL primary keys never collide, so a NULL plant id adds one more row and a non-NULL one adds none |
| DbHandler.RecordOf | Central_Server/db_handler.py:170-181 | the record read back has exactly the nine stored keys, each holding its column, with the schedule under `lighting_schedule_*`; it has no `light_schedule_*` and no `water_pump_active` key |
| DbHandler.DataBaseHandler.constructor | Central_Server/db_handler.py:5-7 | opening the store keeps existing rows and installs the default profiles over the profile table |
| DbHandler.DataBaseHandler.InitDefaultSettings | Central_Server/db_handler.py:44-75 | INSERT OR REPLACE of the five profiles, which leaves every default profile installed; the other tables are unchanged |
| DbHandler.DataBaseHandler.SetPlantSettings | Central_Server/db_handler.py:76-138 | returns the resolved settings for today's date; the settings table gains or replaces exactly the row of the returned `plant_id`, or, for a NULL `plant_id`, gains one more unkeyed row; the other tables are unchanged |
| DbHandler.DataBaseHandler.StoreSensorData | Central_Server/db_handler.py:140-157 | a payload missing a field raises KeyError for the first missing field and stores nothing; otherwise exactly one row is appended, with the four values and the time |
| DbHandler.DataBaseHandler.GetPlantSettings | Central_Server/db_handler.py:159-182 | None iff the plant id is NULL (which equals nothing in SQL) or has no row; otherwise the row as a record |
| DbHandler.StoredRecordOfSettings | Central_Server/db_handler.py:170-181 | reading back a written record gives back its values for the shared keys, and its schedule under the renamed keys |
| DbHandler.ResolvedFromProfile | Central_Server/db_handler.py:104-115 | without overrides, every field comes from the type's profile; the schedule is `today + " " + time of day`; id and type are the requested ones; `ml_enabled` is 0 or 1 |
| DbHandler.OverridesReplaceOnlyTheirKeys | Central_Server/db_handler.py:118-119 | an overridden key takes the override's value; every other key keeps its profile value |
| DbHandler.UnknownTypeUsesDefaultProfile | Central_Server/db_handler.py:95-101 | without overrides, a type that has no profile row gets the generic values (0.6, 800, 30, 120, 08:00:00 to 18:00:00, ML off) but keeps its own type name |
| MlDbHandler.InitialEvent | Central_Server/ML_Service/ml_db_handler.py:81-90 | a new event holds the plant, the duration, the moisture before and the time; moisture after and prediction id are unset |
| MlDbHandler.Completed | Central_Server/ML_Service/ml_db_handler.py:102-106 | completing an event sets moisture after and keeps every other column |
| MlDbHandler.MLDataBaseHandler.constructor | Central_Server/ML_Service/ml_db_handler.py:5-7 | opening the log keeps the existing rows and sequence |
| MlDbHandler.MLDataBaseHandler.StoreWateringEventInitial | Central_Server/ML_Service/ml_db_handler.py:77-96 | a None plant id raises IntegrityError and changes nothing; otherwise the returned id is the next in the sequence, above every existing id, and only that row is added |
| MlDbHandler.MLDataBaseHandler.StoreWateringEventFinal | Central_Server/ML_Service/ml_db_handler.py:98-108 | only the row with that id changes, only in moisture after; an unknown id changes nothing |
| MlDbHandler.MLDataBaseHandler.StoreWateringFeedback | Central_Server/ML_Service/ml_db_handler.py:55-71 | no table changes |
| MlDbHandler.MLDataBaseHandler.StoreWateringPrediction | Central_Server/ML_Service/ml_db_handler.py:73-75 | no table changes |
| MlDbHandler.LogWatering | Central_Server/ML_Service/ml_db_handler.py:77-108 | on an empty log, opening then completing an event gives id 1 and one row holding both readings |
| Integration.StoredSettingsNeverLight | Central_Server/plant_controller.py:38-39 | a record read back from the store never needs light, so a rule-based decision on it never turns the light on |
| Integration.StoredSettingsNeverPumpUnderMl | Central_Server/plant_controller.py:67 | a record read back from the store never runs the pump under the model-based strategy |
| Integration.ResolvedScheduleParses | Central_Server/db_handler.py:111-112 | for a plant type with no profile row of its own and no overrides, the freshly resolved record's schedule parses as 08:00:00 to 18:00:00 on the day it was made |
| Integration.LightLostInStorage | Central_Server/db_handler.py:177-178 | for a plant type with no profile row of its own and no overrides, at a moment from 08:00 up to 18:00 and with a numeric light level below 800, the plant gets light from the freshly resolved record and none from the stored one |
| Scenarios.RuleBasedBatch | Central_Server/tests/pc_test.py:17-79 | the two-plant batch decides both pumps on, for 5 and 3, and both lights off, at any time |
| Scenarios.TestRuleBasedDecisions | Central_Server/tests/pc_test.py:62-79 | the rule-based loop returns exactly those two decisions |
| Scenarios.NeedsWaterCases | Central_Server/tests/pc_test.py:112-124 | moisture 70 against 75 needs water; 80 does not |
| Scenarios.NeedsLightCases | Central_Server/tests/pc_test.py:126-155 | at 15:30:22 inside 14:30:22–16:30:22, level 80 against 85 needs light; 90 does not |
| Scenarios.InvalidScheduleNoLight | Central_Server/tests/pc_test.py:157-173 | unparseable schedule bounds give False at any time |
| Scenarios.DefaultTypeSettings | Central_Server/tests/db_test.py:51-57 | type "default" gives 0.6 and 800 |
| Scenarios.TropicalTypeSettings | Central_Server/tests/db_test.py:59-65 | type "tropical" gives 0.8 and 400 |
| Scenarios.HerbOverrides | Central_Server/tests/db_test.py:67-76 | overrides 0.9 and 1200 on a herb replace both thresholds and keep the herb duration and schedule |
| Scenarios.SetThenGet | Central_Server/tests/db_test.py:101-117 | settings written for a herb read back with type herbs, 0.6 and 800; an unknown plant reads back None |
| Scenarios.HerbSettingsStored | Central_Server/tests/db_test.py:101-112 | the herb record stored and read back keeps its type and thresholds |
| Scenarios.StoreReading | Central_Server/tests/db_test.py:78-99 | storing the test payload appends exactly one row with its values |
| Scenarios.WateringEventRoundTrip | Central_Server/ML_Service/ml_db_tests.py:6-14 | initial(101, 50, 15) then final(id, 80) gives a row with before 50, after 80 and duration 15 |

## Left out

- The MQTT transport and server (`mqtt_server.py`, whose handler and controller attributes are never initialised), the web dashboards, the HTTP API and the legacy duplicate `DataBaseHandler.py` are not part of this model.
- No payload validator and no per-plant before/after watering tracker exists in this code. The only validation is the KeyError in `store_sensor_data`, which is modelled.
- `set_plant_settings` always re-synthesises the record from the profile and overwrites an existing row; calling it again for a plant does not return the earlier row. The model does the same.
- SQLite itself is not modelled: connections, commit and close, type affinity, foreign keys and the `sqlite_sequence` table itself (its counter for `watering_events` is `lastEventId`). Values are stored as given, except that the profile table's boolean `ml_enabled` comes back as 0 or 1. INSERT OR REPLACE on a non-NULL primary key is a map update; a NULL key adds an unkeyed row that no lookup finds.
- The sensor table's own row ids are not modelled, so its rows form a sequence.
- The `watering_feedback` and `watering_predictions` tables are created but never written, so they are not fields of the model.
- Numbers are exact reals. Floating-point rounding is not modelled.
- Python treats `1`, `1.0` and `True` as the same dict key. The model treats `Num(1.0)` and `Flag(true)` as different prediction keys.
- DateTimes.ParseFields: accepts only zero-padded fixed-width fields of ASCII digits separated by a single space. Python's strptime also accepts unpadded fields, such as "2025-2-1 8:0:0", matches its digit fields against any Unicode decimal digit, matches the space in the format against any run of whitespace, and accepts a space-padded day such as "2025-02- 1 08:00:00". For such input the model gives a parse failure, and therefore False in `NeedsLight`.
- DateTimes.Pad4: pads years below 1000 to four digits. Python's `%Y` output for such years depends on the platform.
- Timestamps stored in sensor rows and watering events are `DateTime` values without microseconds. The controller's clock does carry microseconds.
- DbHandler.ProfileSettings: its contract states only the key set. The value of each key is stated by `ResolvedFromProfile`.
- DbHandler.ResolvedSettings: its contract states only that the nine keys are present. The values are stated by `ResolvedFromProfile` and `OverridesReplaceOnlyTheirKeys`.
- PlantController.PlantDecision: its contract states only the error kind. The full characterisation is `PlantDecisionFields`.
- DbHandler.DataBaseHandler.SetPlantSettings: requires the profile table to hold the installed profiles. The constructor establishes this, and nothing in the modelled code deletes profile rows. If the "default" row were missing, Python would fail on subscripting None.
- DbHandler.DataBaseHandler.constructor: requires that the keyed settings rows it is given have a non-NULL plant id; rows with a NULL id are passed separately as unkeyed rows.
- MlDbHandler.MLDataBaseHandler.StoreWateringEventInitial: the connection left open when the insert fails is not modelled.
- MlDbHandler.MLDataBaseHandler.StoreWateringEventFinal: takes the event id as an integer, as its only caller passes the `lastrowid` it got back. SQLite applies numeric affinity to the value compared with the INTEGER PRIMARY KEY, so "1", 1.0 and True would also select row 1, while None and non-numeric text select none; those other argument types are not modelled.
- AUTOINCREMENT exhaustion at 2^63 − 1 is not modelled.
- The `print` in `_needs_light` and the `print` calls in the watering-event script produce output that is not modelled.

=== FILE: datetimes.dfy ===
/**
 * Calendar datetimes, their text form "%Y-%m-%d %H:%M:%S" and the partial
 * parse of that form (the strptime call that reads a light schedule bound).
 * A datetime is compared through `Timestamp`, a mixed-radix integer whose
 * order is the lexicographic order of (year, month, day, hour, minute, second).
 */
module DateTimes {
  import opened PyValues

  datatype DateTime = DateTime(year: int, month: int, day: int, hour: int, minute: int, second: int)

  predicate IsLeapYear(y: int) {
    y % 4 == 0 && (y % 100 != 0 || y % 400 == 0)
  }

  function DaysInMonth(y: int, m: int): (n: int)
    requires 1 <= m <= 12
    ensures 28 <= n <= 31
  {
    if m == 2 then (if IsLeapYear(y) then 29 else 28)
    else if m == 4 || m == 6 || m == 9 || m == 11 then 30
    else 31
  }

  /** The datetimes the calendar admits, years 1 to 9999 as in Python's datetime. */
  predicate ValidDateTime(dt: DateTime) {
    && 1 <= dt.year <= 9999
    && 1 <= dt.month <= 12
    && 1 <= dt.day <= DaysInMonth(dt.year, dt.month)
    && 0 <= dt.hour < 24
    && 0 <= dt.minute < 60
    && 0 <= dt.second < 60
  }

  /** The whole seconds a datetime is compared by. */
  function Timestamp(dt: DateTime): (t: int) {
    ((((dt.year * 12 + dt.month - 1) * 31 + dt.day - 1) * 24 + dt.hour) * 60 + dt.minute) * 60 + dt.second
  }

  /** (year, month, day, hour, minute, second) of `a` precede those of `b` in lexicographic order. */
  predicate LexicographicallyBefore(a: DateTime, b: DateTime) {
    || a.year < b.year
    || (a.year == b.year && a.month < b.month)
    || (a.year == b.year && a.month == b.month && a.day < b.day)
    || (a.year == b.year && a.month == b.month && a.day == b.day && a.hour < b.hour)
    || (a.year == b.year && a.month == b.month && a.day == b.day && a.hour == b.hour && a.minute < b.minute)
    || (a.year == b.year && a.month == b.month && a.day == b.day && a.hour == b.hour && a.minute == b.minute && a.second < b.second)
  }

  /** One mixed-radix digit: `p*k + x` orders and equates like the pair (p, x) when the digits are below `k`. */
  lemma {:induction false} MixedRadixDigit(p: int, x: int, q: int, y: int, k: int)
    requires 0 <= x < k && 0 <= y < k
    ensures p * k + x < q * k + y <==> p < q || (p == q && x < y)
    ensures p * k + x == q * k + y <==> p == q && x == y
  {
    if p < q {
      RadixGap(p, q, k);
    } else if q < p {
      RadixGap(q, p, k);
    }
  }

  /** Between multiples of `k`, a larger multiplier is at least `k` larger. */
  lemma RadixGap(p: int, q: int, k: int)
    requires p < q && 0 < k
    ensures p * k + k <= q * k
  {
    var d := q - p - 1;
    assert d >= 0;
    assert d * k >= 0;
    assert q * k == (p + 1 + d) * k == p * k + k + d * k;
  }

  /**
   * On valid datetimes, comparing timestamps is comparing the fields
   * lexicographically, and equal timestamps mean equal datetimes.
   */
  lemma TimestampOrder(a: DateTime, b: DateTime)
    requires ValidDateTime(a) && ValidDateTime(b)
    ensures Timestamp(a) < Timestamp(b) <==> LexicographicallyBefore(a, b)
    ensures Timestamp(a) == Timestamp(b) <==> a == b
  {
    var ma, mb := a.year * 12 + a.month - 1, b.year * 12 + b.month - 1;
    MixedRadixDigit(a.year, a.month - 1, b.year, b.month - 1, 12);
    var da, db := ma * 31 + a.day - 1, mb * 31 + b.day - 1;
    MixedRadixDigit(ma, a.day - 1, mb, b.day - 1, 31);
    var ha, hb := da * 24 + a.hour, db * 24 + b.hour;
    MixedRadixDigit(da, a.hour, db, b.hour, 24);
    var na, nb := ha * 60 + a.minute, hb * 60 + b.minute;
    MixedRadixDigit(ha, a.minute, hb, b.minute, 60);
    MixedRadixDigit(na, a.second, nb, b.second, 60);
    assert Timestamp(a) == na * 60 + a.second && Timestamp(b) == nb * 60 + b.second;
  }

  const MicrosPerSecond := 1000000

  /**
   * A point in time at microsecond resolution (the clock's reading carries
   * microseconds; a parsed datetime has microsecond 0). Instants order like
   * (timestamp, microsecond) pairs, by `MixedRadixDigit`.
   */
  function Instant(dt: DateTime, microsecond: int): (t: int) {
    Timestamp(dt) * MicrosPerSecond + microsecond
  }

  predicate IsDigit(c: char) {
    '0' <= c <= '9'
  }

  function DigitValue(c: char): (n: int)
    requires IsDigit(c)
    ensures 0 <= n < 10
  {
    c as int - '0' as int
  }

  function DigitChar(n: int): (c: char)
    requires 0 <= n < 10
    ensures IsDigit(c) && DigitValue(c) == n
  {
    ('0' as int + n) as char
  }

  /** A number below 100 as two zero-padded digits. */
  function Pad2(n: int): (s: string)
    requires 0 <= n < 100
    ensures |s| == 2 && IsDigit(s[0]) && IsDigit(s[1])
    ensures 10 * DigitValue(s[0]) + DigitValue(s[1]) == n
  {
    [DigitChar(n / 10), DigitChar(n % 10)]
  }

  /** A number below 10000 as four zero-padded digits. */
  function Pad4(n: int): (s: string)
    requires 0 <= n < 10000
    ensures |s| == 4 && IsDigit(s[0]) && IsDigit(s[1]) && IsDigit(s[2]) && IsDigit(s[3])
    ensures 1000 * DigitValue(s[0]) + 100 * DigitValue(s[1]) + 10 * DigitValue(s[2]) + DigitValue(s[3]) == n
  {
    var hi, lo := Pad2(n / 100), Pad2(n % 100);
    assert n == 100 * (n / 100) + n % 100;
    hi + lo
  }

  /**
   * strftime("%Y-%m-%d"): the year, month and day as zero-padded digit fields
   * between two dashes.
   */
  function FormatDate(dt: DateTime): (s: string)
    requires ValidDateTime(dt)
    ensures |s| == 10
    ensures DigitsAt(s, 0, 4) && s[4] == '-' && DigitsAt(s, 5, 2) && s[7] == '-' && DigitsAt(s, 8, 2)
    ensures Field4(s, 0) == dt.year && Field2(s, 5) == dt.month && Field2(s, 8) == dt.day
  {
    var s := Pad4(dt.year) + "-" + Pad2(dt.month) + "-" + Pad2(dt.day);
    assert s[0..4] == Pad4(dt.year) && s[5..7] == Pad2(dt.month) && s[8..10] == Pad2(dt.day);
    s
  }

  /** strftime("%H:%M:%S") */
  function FormatTime(dt: DateTime): (s: string)
    requires ValidDateTime(dt)
    ensures |s| == 8
  {
    Pad2(dt.hour) + ":" + Pad2(dt.minute) + ":" + Pad2(dt.second)
  }

  /** strftime("%Y-%m-%d %H:%M:%S") */
  function FormatDateTime(dt: DateTime): (s: string)
    requires ValidDateTime(dt)
    ensures |s| == 19
  {
    FormatDate(dt) + " " + FormatTime(dt)
  }

  predicate DigitsAt(s: string, i: nat, count: nat) {
    i + count <= |s| && forall k :: i <= k < i + count ==> IsDigit(s[k])
  }

  /** The layout of "%Y-%m-%d %H:%M:%S": digits and separators in place. */
  predicate DateTimeShaped(s: string) {
    && |s| == 19
    && DigitsAt(s, 0, 4) && s[4] == '-' && DigitsAt(s, 5, 2) && s[7] == '-' && DigitsAt(s, 8, 2)
    && s[10] == ' '
    && DigitsAt(s, 11, 2) && s[13] == ':' && DigitsAt(s, 14, 2) && s[16] == ':' && DigitsAt(s, 17, 2)
  }

  function Field2(s: string, i: nat): (n: int)
    requires DigitsAt(s, i, 2)
    ensures 0 <= n < 100
  {
    10 * DigitValue(s[i]) + DigitValue(s[i + 1])
  }

  function Field4(s: string, i: nat): (n: int)
    requires DigitsAt(s, i, 4)
    ensures 0 <= n < 10000
  {
    1000 * DigitValue(s[i]) + 100 * DigitValue(s[i + 1]) + 10 * DigitValue(s[i + 2]) + DigitValue(s[i + 3])
  }

  /**
   * strptime(s, "%Y-%m-%d %H:%M:%S"): the datetime `s` denotes, or None where
   * strptime raises ValueError (wrong layout, or a field out of the calendar's range).
   * What it accepts is exactly the text form of some valid datetime.
   */
  function ParseFields(s: string): (r: Option<DateTime>)
    ensures r.Some? ==> ValidDateTime(r.value) && FormatDateTime(r.value) == s
  {
    if !DateTimeShaped(s) then None
    else
      var dt := DateTime(Field4(s, 0), Field2(s, 5), Field2(s, 8), Field2(s, 11), Field2(s, 14), Field2(s, 17));
      if ValidDateTime(dt) then
        FormatInvertsParse(s, dt);
        Some(dt)
      else None
  }

  lemma DigitCharValue(c: char)
    requires IsDigit(c)
    ensures DigitChar(DigitValue(c)) == c
  {
  }

  lemma Pad2Fields(s: string, i: nat)
    requires DigitsAt(s, i, 2)
    ensures Pad2(Field2(s, i)) == s[i..i + 2]
  {
    var a, b := DigitValue(s[i]), DigitValue(s[i + 1]);
    assert (10 * a + b) / 10 == a && (10 * a + b) % 10 == b;
    DigitCharValue(s[i]);
    DigitCharValue(s[i + 1]);
  }

  lemma Pad4Fields(s: string, i: nat)
    requires DigitsAt(s, i, 4)
    ensures Pad4(Field4(s, i)) == s[i..i + 4]
  {
    var a, b, c, d := DigitValue(s[i]), DigitValue(s[i + 1]), DigitValue(s[i + 2]), DigitValue(s[i + 3]);
    var n := 1000 * a + 100 * b + 10 * c + d;
    assert n / 100 == 10 * a + b && n % 100 == 10 * c + d;
    assert (10 * a + b) / 10 == a && (10 * a + b) % 10 == b;
    assert (10 * c + d) / 10 == c && (10 * c + d) % 10 == d;
    DigitCharValue(s[i]);
    DigitCharValue(s[i + 1]);
    DigitCharValue(s[i + 2]);
    DigitCharValue(s[i + 3]);
  }

  lemma FormatDateInvertsParse(s: string, dt: DateTime)
    requires DateTimeShaped(s) && ValidDateTime(dt)
    requires dt.year == Field4(s, 0) && dt.month == Field2(s, 5) && dt.day == Field2(s, 8)
    ensures FormatDate(dt) == s[0..10]
  {
    Pad4Fields(s, 0);
    Pad2Fields(s, 5);
    Pad2Fields(s, 8);
    assert s[0..10] == s[0..4] + s[4..5] + s[5..7] + s[7..8] + s[8..10];
  }

  lemma FormatTimeInvertsParse(s: string, dt: DateTime)
    requires DateTimeShaped(s) && ValidDateTime(dt)
    requires dt.hour == Field2(s, 11) && dt.minute == Field2(s, 14) && dt.second == Field2(s, 17)
    ensures FormatTime(dt) == s[11..19]
  {
    Pad2Fields(s, 11);
    Pad2Fields(s, 14);
    Pad2Fields(s, 17);
    assert s[11..19] == s[11..13] + s[13..14] + s[14..16] + s[16..17] + s[17..19];
  }

  lemma FormatInvertsParse(s: string, dt: DateTime)
    requires DateTimeShaped(s) && ValidDateTime(dt)
    requires dt == DateTime(Field4(s, 0), Field2(s, 5), Field2(s, 8), Field2(s, 11), Field2(s, 14), Field2(s, 17))
    ensures FormatDateTime(dt) == s
  {
    FormatDateInvertsParse(s, dt);
    FormatTimeInvertsParse(s, dt);
    assert s == s[0..10] + s[10..11] + s[11..19];
  }

  /** The value strptime yields, as the instant it is compared by. */
  function ParseDateTime(s: string): (r: Option<int>)
    ensures r.Some? <==> ParseFields(s).Some?
    ensures r.Some? ==> |s| == 19
    ensures r.Some? ==> r.value == Instant(ParseFields(s).value, 0)
  {
    match ParseFields(s)
    case Some(dt) => Some(Instant(dt, 0))
    case None => None
  }

  /** Parsing the text form of a valid datetime gives that datetime back. */
  lemma ParseFormatted(dt: DateTime)
    requires ValidDateTime(dt)
    ensures ParseFields(FormatDateTime(dt)) == Some(dt)
    ensures ParseDateTime(FormatDateTime(dt)) == Some(Instant(dt, 0))
  {
    var s := FormatDateTime(dt);
    var y, mo, d := Pad4(dt.year), Pad2(dt.month), Pad2(dt.day);
    var h, mi, se := Pad2(dt.hour), Pad2(dt.minute), Pad2(dt.second);
    assert s == y + "-" + mo + "-" + d + " " + h + ":" + mi + ":" + se;
    assert s[0..4] == y && s[5..7] == mo && s[8..10] == d;
    assert s[11..13] == h && s[14..16] == mi && s[17..19] == se;
    assert DateTimeShaped(s);
    assert Field4(s, 0) == dt.year;
    assert Field2(s, 5) == dt.month && Field2(s, 8) == dt.day;
    assert Field2(s, 11) == dt.hour && Field2(s, 14) == dt.minute && Field2(s, 17) == dt.second;
  }
}

=== FILE: db_handler.dfy ===
/**
 * The settings store: a type-keyed table of default profiles, the per-plant
 * settings table (one row per plant id, written by upsert) and the append-only
 * table of sensor readings. The tables are fields of the handler object; the
 * clock is a parameter of the operations that read it.
 */
module DbHandler {
  import opened PyValues
  import opened DateTimes

  /** A row of the default profile table, keyed by plant type. */
  datatype Profile = Profile(
    moistureThreshold: real,
    lightThreshold: real,
    wateringDuration: int,
    lightingDuration: int,
    scheduleStart: string,   // time of day, "%H:%M:%S"
    scheduleEnd: string,
    mlEnabled: bool)

  const Herbs := Profile(0.6, 800.0, 30, 120, "06:00:00", "18:00:00", false)
  const Vegetables := Profile(0.7, 1000.0, 45, 180, "08:00:00", "18:00:00", false)
  const Succulents := Profile(0.3, 600.0, 15, 240, "08:00:00", "18:00:00", false)
  const Tropical := Profile(0.8, 400.0, 60, 120, "08:00:00", "18:00:00", false)
  /** The generic profile every unknown plant type falls back to. */
  const Generic := Profile(0.6, 800.0, 30, 120, "08:00:00", "18:00:00", false)

  /** The profiles installed on every start-up (INSERT OR REPLACE). */
  function DefaultProfiles(): (m: map<string, Profile>)
    ensures m.Keys == {"herbs", "vegetables", "succulents", "tropical", "default"}
    ensures m["herbs"] == Herbs && m["vegetables"] == Vegetables && m["succulents"] == Succulents
    ensures m["tropical"] == Tropical && m["default"] == Generic
  {
    map["herbs" := Herbs, "vegetables" := Vegetables, "succulents" := Succulents, "tropical" := Tropical, "default" := Generic]
  }

  /** The profile table holds every default profile as installed (other rows may exist too). */
  ghost predicate ProfilesInstalled(profiles: map<string, Profile>) {
    && "herbs" in profiles && profiles["herbs"] == Herbs
    && "vegetables" in profiles && profiles["vegetables"] == Vegetables
    && "succulents" in profiles && profiles["succulents"] == Succulents
    && "tropical" in profiles && profiles["tropical"] == Tropical
    && "default" in profiles && profiles["default"] == Generic
  }

  /** A row of the plant settings table, column by column; values are kept as given. */
  datatype SettingsRow = SettingsRow(
    plantId: Value,
    moistureThreshold: Value,
    lightThreshold: Value,
    wateringDuration: Value,
    lightingDuration: Value,
    lightScheduleStart: Value,
    lightScheduleEnd: Value,
    plantType: Value,
    mlEnabled: Value)

  /** A row of the sensor readings table (its engine-assigned row id is not modelled). */
  datatype SensorRow = SensorRow(
    plantId: Value,
    moisture: Value,
    temperature: Value,
    humidity: Value,
    lightLevel: Value,
    timestamp: DateTime)

  /** The keys of a settings record as `set_plant_settings` builds it. */
  const SettingsKeys: set<string> := {
    "plant_id", "moisture_threshold", "light_threshold", "watering_duration", "lighting_duration",
    "light_schedule_start", "light_schedule_end", "plant_type", "ml_enabled"}

  /** The keys of a settings record as `get_plant_settings` returns it. */
  const StoredSettingsKeys: set<string> := {
    "plant_id", "moisture_threshold", "light_threshold", "watering_duration", "lighting_duration",
    "lighting_schedule_start", "lighting_schedule_end", "plant_type", "ml_enabled"}

  /** The first of the four reading fields, in the order they are read, that a payload lacks. */
  function MissingReadingField(data: Dict): (r: Option<string>)
    ensures r.None? <==> "moisture" in data && "temperature" in data && "humidity" in data && "light_level" in data
    ensures r.Some? ==> r.value !in data
    // the first absent field, in the order the insert reads them
    ensures r == Some("temperature") ==> "moisture" in data
    ensures r == Some("humidity") ==> "moisture" in data && "temperature" in data
    ensures r == Some("light_level") ==> "moisture" in data && "temperature" in data && "humidity" in data
  {
    if "moisture" !in data then Some("moisture")
    else if "temperature" !in data then Some("temperature")
    else if "humidity" !in data then Some("humidity")
    else if "light_level" !in data then Some("light_level")
    else None
  }

  /** The profile for a plant type: its own row if the table has one, else the "default" row. */
  function ProfileFor(profiles: map<string, Profile>, plantType: Value): (p: Profile)
    requires "default" in profiles
    ensures plantType.Text? && plantType.s in profiles ==> p == profiles[plantType.s]
    ensures !(plantType.Text? && plantType.s in profiles) ==> p == profiles["default"]
  {
    if plantType.Text? && plantType.s in profiles then profiles[plantType.s] else profiles["default"]
  }

  /**
   * The settings record built from a profile, before overrides: the profile's
   * values, the requested plant type, and the schedule's times of day anchored
   * to `today`. The boolean ml flag comes back from the table as the integer 0 or 1.
   */
  function ProfileSettings(plantId: Value, plantType: Value, p: Profile, today: string): (d: Dict)
    ensures d.Keys == SettingsKeys
  {
    map[
      "plant_id" := plantId,
      "moisture_threshold" := Num(p.moistureThreshold),
      "light_threshold" := Num(p.lightThreshold),
      "watering_duration" := Num(p.wateringDuration as real),
      "lighting_duration" := Num(p.lightingDuration as real),
      "light_schedule_start" := Text(today + " " + p.scheduleStart),
      "light_schedule_end" := Text(today + " " + p.scheduleEnd),
      "plant_type" := plantType,
      "ml_enabled" := Num(if p.mlEnabled then 1.0 else 0.0)
    ]
  }

  /** `d.update(custom)`: every key of `custom` takes its value there. */
  function Update(d: Dict, custom: Dict): (r: Dict)
    ensures r.Keys == d.Keys + custom.Keys
    ensures forall k :: k in r ==> r[k] == (if k in custom then custom[k] else d[k])
  {
    d + custom
  }

  /**
   * What `set_plant_settings` returns: the profile's settings with the caller's
   * overrides laid over them key by key. An override replaces exactly the key
   * it names; every other key keeps its profile value.
   */
  function ResolvedSettings(profiles: map<string, Profile>, plantId: Value, plantType: Value, custom: Dict, today: string): (d: Dict)
    requires "default" in profiles
    ensures SettingsKeys <= d.Keys
  {
    var settings := ProfileSettings(plantId, plantType, ProfileFor(profiles, plantType), today);
    if |custom| > 0 then Update(settings, custom) else settings
  }

  /** The row written for a settings record. */
  function RowOf(d: Dict): (row: SettingsRow)
    requires SettingsKeys <= d.Keys
    ensures row.plantId == d["plant_id"]
    ensures row.moistureThreshold == d["moisture_threshold"] && row.lightThreshold == d["light_threshold"]
    ensures row.wateringDuration == d["watering_duration"] && row.lightingDuration == d["lighting_duration"]
    ensures row.lightScheduleStart == d["light_schedule_start"] && row.lightScheduleEnd == d["light_schedule_end"]
    ensures row.plantType == d["plant_type"] && row.mlEnabled == d["ml_enabled"]
  {
    SettingsRow(
      d["plant_id"], d["moisture_threshold"], d["light_threshold"], d["watering_duration"],
      d["lighting_duration"], d["light_schedule_start"], d["light_schedule_end"], d["plant_type"], d["ml_enabled"])
  }

  /**
   * The record `get_plant_settings` makes of a row. Its schedule keys are named
   * "lighting_schedule_start"/"lighting_schedule_end", not the "light_schedule_*"
   * keys the record was written under.
   */
  function RecordOf(row: SettingsRow): (d: Dict)
    ensures d.Keys == StoredSettingsKeys
    ensures "light_schedule_start" !in d && "light_schedule_end" !in d && "water_pump_active" !in d
    ensures d["plant_id"] == row.plantId && d["plant_type"] == row.plantType && d["ml_enabled"] == row.mlEnabled
    ensures d["moisture_threshold"] == row.moistureThreshold && d["light_threshold"] == row.lightThreshold
    ensures d["watering_duration"] == row.wateringDuration && d["lighting_duration"] == row.lightingDuration
    ensures d["lighting_schedule_start"] == row.lightScheduleStart && d["lighting_schedule_end"] == row.lightScheduleEnd
  {
    map[
      "plant_id" := row.plantId,
      "moisture_threshold" := row.moistureThreshold,
      "light_threshold" := row.lightThreshold,
      "watering_duration" := row.wateringDuration,
      "lighting_duration" := row.lightingDuration,
      "lighting_schedule_start" := row.lightScheduleStart,
      "lighting_schedule_end" := row.lightScheduleEnd,
      "plant_type" := row.plantType,
      "ml_enabled" := row.mlEnabled
    ]
  }

  /**
   * The keyed settings rows after INSERT OR REPLACE of `row`: a non-NULL plant
   * id replaces or adds exactly its own row; a NULL id leaves them as they were.
   */
  function KeyedAfterUpsert(table: map<Value, SettingsRow>, row: SettingsRow): (t: map<Value, SettingsRow>)
    ensures row.plantId != Null ==> row.plantId in t && t[row.plantId] == row
    ensures forall id :: id != row.plantId ==> (id in t <==> id in table) && (id in t ==> t[id] == table[id])
    ensures row.plantId == Null ==> t == table
  {
    if row.plantId == Null then table else table[row.plantId := row]
  }

  /** The NULL-keyed settings rows after INSERT OR REPLACE of `row`: NULL keys never collide, so one more row. */
  function UnkeyedAfterUpsert(rows: seq<SettingsRow>, row: SettingsRow): (r: seq<SettingsRow>)
    ensures row.plantId == Null ==> r == rows + [row]
    ensures row.plantId != Null ==> r == rows
  {
    if row.plantId == Null then rows + [row] else rows
  }

  class DataBaseHandler {
    var defaultPlantSettings: map<string, Profile>
    /** The settings rows keyed by a non-NULL plant id. */
    var plantSettings: map<Value, SettingsRow>
    /**
     * The settings rows whose plant id is NULL: the key column admits NULL, and
     * NULL keys never collide, so each such write adds a row no lookup finds.
     */
    var unkeyedSettings: seq<SettingsRow>
    var sensorData: seq<SensorRow>

    ghost predicate Valid()
      reads this
    {
      ProfilesInstalled(defaultPlantSettings) && Null !in plantSettings
    }

    /** Opens a database whose tables already hold the given rows, then installs the default profiles. */
    constructor (profiles: map<string, Profile>, settingsRows: map<Value, SettingsRow>, unkeyedRows: seq<SettingsRow>,
                 readings: seq<SensorRow>)
      requires Null !in settingsRows
      ensures Valid()
      ensures defaultPlantSettings == profiles + DefaultProfiles()
      ensures plantSettings == settingsRows && unkeyedSettings == unkeyedRows && sensorData == readings
    {
      defaultPlantSettings := profiles;
      plantSettings := settingsRows;
      unkeyedSettings := unkeyedRows;
      sensorData := readings;
      new;
      InitDefaultSettings();
    }

    /** Installs the default profiles, replacing rows of the same plant type. */
    method InitDefaultSettings()
      modifies this
      ensures ProfilesInstalled(defaultPlantSettings)
      ensures defaultPlantSettings == old(defaultPlantSettings) + DefaultProfiles()
      ensures plantSettings == old(plantSettings) && unkeyedSettings == old(unkeyedSettings) && sensorData == old(sensorData)
    {
      defaultPlantSettings := defaultPlantSettings + DefaultProfiles();
    }

    /**
     * Synthesises a plant's settings from its type's profile and the overrides,
     * upserts them under the record's "plant_id" and returns them; a NULL
     * "plant_id" adds a further unkeyed row instead. `now` is the clock reading
     * whose date anchors the light schedule.
     */
    method SetPlantSettings(plantId: Value, plantType: Value, custom: Dict, now: DateTime) returns (settings: Dict)
      requires Valid() && ValidDateTime(now)
      modifies this
      ensures Valid()
      ensures settings == ResolvedSettings(defaultPlantSettings, plantId, plantType, custom, FormatDate(now))
      ensures plantSettings == KeyedAfterUpsert(old(plantSettings), RowOf(settings))
      ensures unkeyedSettings == UnkeyedAfterUpsert(old(unkeyedSettings), RowOf(settings))
      ensures defaultPlantSettings == old(defaultPlantSettings) && sensorData == old(sensorData)
    {
      // the type's own profile row, or the "default" row when the type has none
      var defaults := ProfileFor(defaultPlantSettings, plantType);
      var today := FormatDate(now);
      settings := ProfileSettings(plantId, plantType, defaults, today);
      if |custom| > 0 {
        settings := Update(settings, custom);
      }
      assert settings == ResolvedSettings(defaultPlantSettings, plantId, plantType, custom, today);
      var row := RowOf(settings);
      if row.plantId == Null {
        unkeyedSettings := unkeyedSettings + [row];
      } else {
        plantSettings := plantSettings[row.plantId := row];
      }
      assert plantSettings == KeyedAfterUpsert(old(plantSettings), row);
    }

    /**
     * Appends one reading row. A payload lacking one of the four reading fields
     * raises KeyError for the first one missing, and nothing is stored.
     */
    method StoreSensorData(plantId: Value, data: Dict, now: DateTime) returns (r: Outcome)
      requires Valid()
      modifies this
      ensures Valid()
      ensures MissingReadingField(data).Some? ==>
                r == Fail(KeyError(MissingReadingField(data).value)) && sensorData == old(sensorData)
      ensures MissingReadingField(data).None? ==>
                && r == Pass
                && sensorData == old(sensorData) + [SensorRow(plantId, data["moisture"], data["temperature"],
                                                              data["humidity"], data["light_level"], now)]
      ensures defaultPlantSettings == old(defaultPlantSettings) && plantSettings == old(plantSettings)
      ensures unkeyedSettings == old(unkeyedSettings)
    {
      if "moisture" !in data {
        return Fail(KeyError("moisture"));
      }
      if "temperature" !in data {
        return Fail(KeyError("temperature"));
      }
      if "humidity" !in data {
        return Fail(KeyError("humidity"));
      }
      if "light_level" !in data {
        return Fail(KeyError("light_level"));
      }
      sensorData := sensorData + [SensorRow(plantId, data["moisture"], data["temperature"], data["humidity"], data["light_level"], now)];
      r := Pass;
    }

    /**
     * The stored settings of a plant, or None when the plant has no row. A NULL
     * plant id equals nothing in SQL, so it never finds a row.
     */
    function GetPlantSettings(plantId: Value): (r: Option<Dict>)
      reads this
      ensures r.None? <==> plantId == Null || plantId !in plantSettings
      ensures r.Some? ==> r.value == RecordOf(plantSettings[plantId])
    {
      if plantId != Null && plantId in plantSettings then Some(RecordOf(plantSettings[plantId])) else None
    }
  }

  /**
   * Reading back a written row gives the written values, with the schedule
   * under the "lighting_schedule_*" keys; keys an override added beyond the
   * nine columns are not kept.
   */
  lemma StoredRecordOfSettings(d: Dict)
    requires SettingsKeys <= d.Keys
    ensures var back := RecordOf(RowOf(d));
            && (forall k :: k in SettingsKeys * StoredSettingsKeys ==> back[k] == d[k])
            && back["lighting_schedule_start"] == d["light_schedule_start"]
            && back["lighting_schedule_end"] == d["light_schedule_end"]
  {
  }

  /**
   * Without overrides, every field comes from the type's profile (the
   * "default" profile for a type without one), the schedule is the profile's
   * times of day on `today`, and the plant id and type are the requested ones.
   */
  lemma ResolvedFromProfile(profiles: map<string, Profile>, plantId: Value, plantType: Value, today: string)
    requires "default" in profiles
    ensures var p := ProfileFor(profiles, plantType);
            var d := ResolvedSettings(profiles, plantId, plantType, map[], today);
            && d.Keys == SettingsKeys
            && d["plant_id"] == plantId && d["plant_type"] == plantType
            && d["moisture_threshold"] == Num(p.moistureThreshold) && d["light_threshold"] == Num(p.lightThreshold)
            && d["watering_duration"] == Num(p.wateringDuration as real)
            && d["lighting_duration"] == Num(p.lightingDuration as real)
            && d["light_schedule_start"] == Text(today + " " + p.scheduleStart)
            && d["light_schedule_end"] == Text(today + " " + p.scheduleEnd)
            && d["ml_enabled"] == Num(if p.mlEnabled then 1.0 else 0.0)
  {
  }

  /**
   * The overrides laid over a profile: the record has the profile's keys and
   * the overrides' keys; an overridden key takes the override's value and
   * every other key keeps the profile's value.
   */
  lemma OverridesReplaceOnlyTheirKeys(profiles: map<string, Profile>, plantId: Value, plantType: Value, custom: Dict, today: string)
    requires "default" in profiles
    ensures var base := ProfileSettings(plantId, plantType, ProfileFor(profiles, plantType), today);
            var d := ResolvedSettings(profiles, plantId, plantType, custom, today);
            && d.Keys == SettingsKeys + custom.Keys
            && (forall k :: k in custom ==> d[k] == custom[k])
            && (forall k :: k in base && k !in custom ==> d[k] == base[k])
  {
  }

  /** A type without a profile takes the "default" profile's values but keeps its own name. */
  lemma UnknownTypeUsesDefaultProfile(profiles: map<string, Profile>, plantId: Value, plantType: string, today: string)
    requires ProfilesInstalled(profiles) && plantType !in profiles
    ensures var d := ResolvedSettings(profiles, plantId, Text(plantType), map[], today);
            && d["plant_type"] == Text(plantType)
            && d["moisture_threshold"] == Num(0.6) && d["light_threshold"] == Num(800.0)
            && d["watering_duration"] == Num(30.0) && d["lighting_duration"] == Num(120.0)
            && d["light_schedule_start"] == Text(today + " 08:00:00")
            && d["light_schedule_end"] == Text(today + " 18:00:00")
            && d["ml_enabled"] == Num(0.0)
  {
  }
}

=== FILE: integration.dfy ===
/**
 * What the controller makes of the settings records the store produces.
 * The store writes the schedule under "light_schedule_*" but reads it back
 * under "lighting_schedule_*", and no stored record has the
 * "water_pump_active" key the model-based strategy reads the pump from; the
 * lemmas here state the consequences, and contrast them with the record
 * `set_plant_settings` returns before it is stored.
 */
module Integration {
  import opened PyValues
  import opened DateTimes
  import opened PlantController
  import opened DbHandler

  /**
   * A settings record read back from the store never turns the grow light on
   * under the rule-based strategy, whatever the reading and the time: the
   * schedule lookup finds no "light_schedule_start" key.
   */
  lemma StoredSettingsNeverLight(row: SettingsRow, reading: Dict, now: int)
    ensures NeedsLight(reading, RecordOf(row), now) == Ok(false)
    ensures PlantDecision(reading, RecordOf(row), now).Ok? ==>
              PlantDecision(reading, RecordOf(row), now).value.growLight.active == Flag(false)
  {
    PlantDecisionFields(reading, RecordOf(row), now);
  }

  /**
   * Under the model-based strategy a settings record read back from the store
   * never runs the pump, whatever the predictions say.
   */
  lemma StoredSettingsNeverPumpUnderMl(row: SettingsRow, predictions: Predictions)
    ensures MlDecision(RecordOf(row), predictions).waterPump.active == Flag(false)
  {
  }

  /** The instant a profile's time of day falls at on the date of `now`. */
  function OnDateOf(now: DateTime, hour: int, minute: int, second: int): (dt: DateTime)
    ensures dt.year == now.year && dt.month == now.month && dt.day == now.day
    ensures dt.hour == hour && dt.minute == minute && dt.second == second
  {
    DateTime(now.year, now.month, now.day, hour, minute, second)
  }

  lemma FormatOnDateOf(now: DateTime, hour: int, minute: int, second: int)
    requires ValidDateTime(now) && 0 <= hour < 24 && 0 <= minute < 60 && 0 <= second < 60
    ensures ValidDateTime(OnDateOf(now, hour, minute, second))
    ensures FormatDateTime(OnDateOf(now, hour, minute, second)) ==
            FormatDate(now) + " " + Pad2(hour) + ":" + Pad2(minute) + ":" + Pad2(second)
  {
    var dt := OnDateOf(now, hour, minute, second);
    assert FormatDate(dt) == FormatDate(now);
  }

  /**
   * By contrast, the record `set_plant_settings` returns for an unknown plant
   * type (no overrides) carries a schedule the controller can read: from
   * 08:00:00 to 18:00:00 on the day it was made.
   */
  lemma ResolvedScheduleParses(profiles: map<string, Profile>, plantId: Value, plantType: string, now: DateTime)
    requires ProfilesInstalled(profiles) && plantType !in profiles && ValidDateTime(now)
    ensures var d := ResolvedSettings(profiles, plantId, Text(plantType), map[], FormatDate(now));
            && ScheduleBound(d, "light_schedule_start") == Some(Instant(OnDateOf(now, 8, 0, 0), 0))
            && ScheduleBound(d, "light_schedule_end") == Some(Instant(OnDateOf(now, 18, 0, 0), 0))
  {
    var d := ResolvedSettings(profiles, plantId, Text(plantType), map[], FormatDate(now));
    UnknownTypeUsesDefaultProfile(profiles, plantId, plantType, FormatDate(now));
    FormatOnDateOf(now, 8, 0, 0);
    FormatOnDateOf(now, 18, 0, 0);
    assert Pad2(8) + ":" + Pad2(0) + ":" + Pad2(0) == "08:00:00";
    assert Pad2(18) + ":" + Pad2(0) + ":" + Pad2(0) == "18:00:00";
    ParseFormatted(OnDateOf(now, 8, 0, 0));
    ParseFormatted(OnDateOf(now, 18, 0, 0));
  }

  /**
   * So the same plant, at the same moment, with a numeric light level below
   * its threshold and inside its schedule, gets light from the record
   * `set_plant_settings` returns and no light from the record stored for it.
   */
  lemma LightLostInStorage(profiles: map<string, Profile>, plantId: Value, plantType: string, now: DateTime, micro: int, reading: Dict, lightLevel: real)
    requires ProfilesInstalled(profiles) && plantType !in profiles && ValidDateTime(now)
    requires 8 <= now.hour < 18 && 0 <= micro < MicrosPerSecond
    requires LightLevel(reading) == Num(lightLevel) && lightLevel < 800.0
    ensures var d := ResolvedSettings(profiles, plantId, Text(plantType), map[], FormatDate(now));
            && NeedsLight(reading, d, Instant(now, micro)) == Ok(true)
            && NeedsLight(reading, RecordOf(RowOf(d)), Instant(now, micro)) == Ok(false)
  {
    var d := ResolvedSettings(profiles, plantId, Text(plantType), map[], FormatDate(now));
    ResolvedScheduleParses(profiles, plantId, plantType, now);
    UnknownTypeUsesDefaultProfile(profiles, plantId, plantType, FormatDate(now));
    var start, end := Instant(OnDateOf(now, 8, 0, 0), 0), Instant(OnDateOf(now, 18, 0, 0), 0);
    assert start <= Instant(now, micro) <= end;
    InsideScheduleLightBelowThreshold(reading, d, Instant(now, micro), start, end);
    StoredSettingsNeverLight(RowOf(d), reading, Instant(now, micro));
  }
}

=== FILE: ml_db_handler.dfy ===
/**
 * The watering-event log of the ML service: one row per watering, opened
 * with the moisture before it and completed later with the moisture after it.
 * Row ids come from the table's AUTOINCREMENT sequence, so an id is never
 * handed out twice, even after the row that had it is gone.
 */
module MlDbHandler {
  import opened PyValues
  import opened DateTimes

  /** A row of the watering events table (its id is the key it is stored under). */
  datatype WateringEvent = WateringEvent(
    plantId: Value,
    wateringDuration: Value,
    moistureBefore: Value,
    moistureAfter: Value,      // None until the event is completed
    timestamp: DateTime,
    predictionId: Value)       // never written: always None

  /** The row a new event starts as: no moisture after it yet, and no prediction. */
  function InitialEvent(plantId: Value, moistureBefore: Value, wateringDuration: Value, now: DateTime): (e: WateringEvent)
    ensures e.plantId == plantId && e.moistureBefore == moistureBefore && e.wateringDuration == wateringDuration
    ensures e.timestamp == now
    ensures e.moistureAfter == Null && e.predictionId == Null
  {
    WateringEvent(plantId, wateringDuration, moistureBefore, Null, now, Null)
  }

  /** An event with its moisture after the watering recorded; every other column is kept. */
  function Completed(e: WateringEvent, moistureAfter: Value): (c: WateringEvent)
    ensures c.moistureAfter == moistureAfter
    ensures c.(moistureAfter := e.moistureAfter) == e
  {
    e.(moistureAfter := moistureAfter)
  }

  class MLDataBaseHandler {
    var wateringEvents: map<int, WateringEvent>
    /** The largest id the table has handed out so far (0 before the first). */
    var lastEventId: int

    /** Every stored id was handed out by the sequence. */
    ghost predicate Valid()
      reads this
    {
      && 0 <= lastEventId
      && forall id :: id in wateringEvents ==> 1 <= id <= lastEventId
    }

    /**
     * Opens a database whose watering events table already holds `events`
     * and whose sequence stands at `sequence` (a state the database engine
     * keeps consistent: no stored id exceeds the sequence).
     */
    constructor (events: map<int, WateringEvent>, sequence: int)
      requires 0 <= sequence && forall id :: id in events ==> 1 <= id <= sequence
      ensures Valid()
      ensures wateringEvents == events && lastEventId == sequence
    {
      wateringEvents := events;
      lastEventId := sequence;
    }

    /**
     * Opens a watering event and returns its id. The plant id column is
     * NOT NULL, so a None plant id raises IntegrityError and nothing changes.
     * Otherwise the id is the next one in the sequence, larger than every id
     * in the table, and only that row is added. `now` is the clock reading
     * stored as the event's timestamp.
     */
    method StoreWateringEventInitial(plantId: Value, moistureBefore: Value, wateringDuration: Value, now: DateTime)
      returns (r: Result<int>)
      requires Valid()
      modifies this
      ensures Valid()
      ensures plantId == Null ==>
                && r == Err(IntegrityError)
                && wateringEvents == old(wateringEvents) && lastEventId == old(lastEventId)
      ensures plantId != Null ==>
                && r.Ok?
                && r.value == old(lastEventId) + 1 == lastEventId
                && r.value !in old(wateringEvents)
                && (forall id :: id in old(wateringEvents) ==> id < r.value)
                && wateringEvents == old(wateringEvents)[r.value := InitialEvent(plantId, moistureBefore, wateringDuration, now)]
    {
      if plantId == Null {
        return Err(IntegrityError);
      }
      var eventId := lastEventId + 1;
      wateringEvents := wateringEvents[eventId := InitialEvent(plantId, moistureBefore, wateringDuration, now)];
      lastEventId := eventId;
      r := Ok(eventId);
    }

    /**
     * Records the moisture after a watering on the event with the given id.
     * An id with no row updates nothing.
     */
    method StoreWateringEventFinal(eventId: int, moistureAfter: Value)
      requires Valid()
      modifies this
      ensures Valid()
      ensures eventId in old(wateringEvents) ==>
                wateringEvents == old(wateringEvents)[eventId := Completed(old(wateringEvents)[eventId], moistureAfter)]
      ensures eventId !in old(wateringEvents) ==> wateringEvents == old(wateringEvents)
      ensures lastEventId == old(lastEventId)
    {
      if eventId in wateringEvents {
        wateringEvents := wateringEvents[eventId := Completed(wateringEvents[eventId], moistureAfter)];
      }
    }

    /** Accepts user feedback on a watering; its insert is not written yet, so no table changes. */
    method StoreWateringFeedback(plantId: Value, data: Dict)
      requires Valid()
      modifies this
      ensures Valid()
      ensures wateringEvents == old(wateringEvents) && lastEventId == old(lastEventId)
    {
    }

    /** Accepts a watering prediction; its body opens a cursor and writes nothing, so no table changes. */
    method StoreWateringPrediction(plantId: Value, predictedMoistureThreshold: Value, predictedDuration: Value, predictedTime: Value)
      requires Valid()
      modifies this
      ensures Valid()
      ensures wateringEvents == old(wateringEvents) && lastEventId == old(lastEventId)
    {
    }
  }

  /**
   * A watering logged from start to finish on a fresh table: the first id is
   * 1, and the row holds the plant, the duration, both moisture readings and
   * the start time.
   */
  method LogWatering(plantId: Value, moistureBefore: Value, wateringDuration: Value, moistureAfter: Value, now: DateTime)
    returns (r: Result<int>, events: map<int, WateringEvent>)
    ensures plantId == Null ==> r == Err(IntegrityError) && events == map[]
    ensures plantId != Null ==>
              && r == Ok(1)
              && events == map[1 := WateringEvent(plantId, wateringDuration, moistureBefore, moistureAfter, now, Null)]
  {
    var db := new MLDataBaseHandler(map[], 0);
    r := db.StoreWateringEventInitial(plantId, moistureBefore, wateringDuration, now);
    if r.Ok? {
      db.StoreWateringEventFinal(r.value, moistureAfter);
    }
    events := db.wateringEvents;
  }
}

=== FILE: plant_controller.dfy ===
/**
 * The decision engine: turns (sensor reading, plant settings) records into
 * pump and grow-light decisions, by fixed thresholds or from model predictions.
 * Readings and settings are flat records read with `.get(key, default)`; a
 * comparison between values Python cannot order raises TypeError, which this
 * code does not catch and which therefore aborts the whole batch.
 */
module PlantController {
  import opened PyValues
  import opened DateTimes

  datatype WaterPump = WaterPump(active: Value, duration: Value)
  datatype GrowLight = GrowLight(active: Value)

  /** The record published to a plant's control topic. */
  datatype Decision = Decision(plantId: Value, waterPump: WaterPump, growLight: GrowLight)

  /** Model output per plant id; each entry is a record such as {"needs_light": True}. */
  type Predictions = map<Value, Dict>

  /** The moisture reading, or 0 when the reading has none. */
  function Moisture(reading: Dict): (v: Value) { Get(reading, "moisture", Num(0.0)) }

  /** The moisture threshold, or 100 when the settings have none. */
  function MoistureThreshold(setting: Dict): (v: Value) { Get(setting, "moisture_threshold", Num(100.0)) }

  /**
   * The plant needs water when its moisture is at or below the threshold.
   */
  function NeedsWater(reading: Dict, setting: Dict): (r: Result<bool>)
    ensures r.Err? <==> Less(Moisture(reading), MoistureThreshold(setting)).Err?
    ensures r.Err? ==> r.error == TypeError
    ensures Number(Moisture(reading)).Some? && Number(MoistureThreshold(setting)).Some? ==>
              r == Ok(Number(Moisture(reading)).value <= Number(MoistureThreshold(setting)).value)
  {
    LessOrEqual(Moisture(reading), MoistureThreshold(setting))
  }

  /** The light level, or 0 when the reading has none. */
  function LightLevel(reading: Dict): (v: Value) { Get(reading, "light_level", Num(0.0)) }

  /** The light threshold, or 100 when the settings have none. */
  function LightThreshold(setting: Dict): (v: Value) { Get(setting, "light_threshold", Num(100.0)) }

  /** A schedule bound as the datetime strptime reads from it (None where strptime would not return). */
  function ScheduleBound(setting: Dict, key: string): (r: Option<int>) {
    var v := Get(setting, key, Text(""));
    if v.Text? then ParseDateTime(v.s) else None
  }

  /**
   * The plant needs light when the current time lies within its light schedule
   * and its light level is below the threshold. A schedule bound that does not
   * parse makes the answer false (strptime's ValueError is caught); a bound that
   * is not a string at all raises TypeError, which is not caught. `now` is the
   * clock's reading as an `Instant` (microseconds included).
   */
  function NeedsLight(reading: Dict, setting: Dict, now: int): (r: Result<bool>)
    // a start bound that is missing or does not parse: false, whatever else the records hold
    ensures (Get(setting, "light_schedule_start", Text("")).Text? &&
             ScheduleBound(setting, "light_schedule_start").None?) ==> r == Ok(false)
    ensures "light_schedule_start" !in setting ==> r == Ok(false)
    // a start bound that parses, with an end bound that is missing or does not parse: false as well
    ensures (ScheduleBound(setting, "light_schedule_start").Some? &&
             Get(setting, "light_schedule_end", Text("")).Text? &&
             ScheduleBound(setting, "light_schedule_end").None?) ==> r == Ok(false)
    ensures ScheduleBound(setting, "light_schedule_start").Some? && "light_schedule_end" !in setting ==> r == Ok(false)
    // the light is only ever switched on inside a parsed schedule window
    ensures r == Ok(true) ==>
              && ScheduleBound(setting, "light_schedule_start").Some?
              && ScheduleBound(setting, "light_schedule_end").Some?
              && ScheduleBound(setting, "light_schedule_start").value <= now <= ScheduleBound(setting, "light_schedule_end").value
              && Less(LightLevel(reading), LightThreshold(setting)) == Ok(true)
  {
    var startText := Get(setting, "light_schedule_start", Text(""));
    if !startText.Text? then Err(TypeError)
    else match ParseDateTime(startText.s)
      case None => Ok(false)
      case Some(start) =>
        var endText := Get(setting, "light_schedule_end", Text(""));
        if !endText.Text? then Err(TypeError)
        else match ParseDateTime(endText.s)
          case None => Ok(false)
          case Some(end) =>
            if !(start <= now && now <= end) then Ok(false)
            else Less(LightLevel(reading), LightThreshold(setting))
  }

  /** The decision record for one plant, given what it needs. */
  function CreatePlantDecision(plantId: Value, needsWater: bool, needsLight: bool, setting: Dict): (d: Decision)
    ensures d.plantId == plantId
    ensures d.waterPump.active == Flag(needsWater) && d.growLight.active == Flag(needsLight)
    ensures needsWater ==> d.waterPump.duration == Get(setting, "watering_duration", Num(0.0))
    ensures !needsWater ==> d.waterPump.duration == Num(0.0)
  {
    Decision(
      plantId,
      WaterPump(Flag(needsWater), if needsWater then Get(setting, "watering_duration", Num(0.0)) else Num(0.0)),
      GrowLight(Flag(needsLight)))
  }

  /**
   * The rule-based decision for one reading/settings pair (the call at the head
   * of the loop body). The water test runs first, so its TypeError is the one raised.
   */
  function PlantDecision(reading: Dict, setting: Dict, now: int): (r: Result<Decision>)
    ensures r.Err? ==> r.error == TypeError
  {
    var water := NeedsWater(reading, setting);
    if water.Err? then Err(water.error)
    else
      var light := NeedsLight(reading, setting, now);
      if light.Err? then Err(light.error)
      else Ok(CreatePlantDecision(Get(reading, "plant_id", Null), water.value, light.value, setting))
  }

  /**
   * A rule-based decision carries the reading's plant id; its pump runs, for the
   * configured watering duration, exactly when the plant needs water (duration 0
   * otherwise); its light is on exactly when the plant needs light. It exists
   * exactly when neither test raises.
   */
  lemma PlantDecisionFields(reading: Dict, setting: Dict, now: int)
    ensures var r := PlantDecision(reading, setting, now);
            && (r.Ok? <==> NeedsWater(reading, setting).Ok? && NeedsLight(reading, setting, now).Ok?)
            && (r.Ok? ==>
                  && r.value.plantId == Get(reading, "plant_id", Null)
                  && r.value.waterPump.active == Flag(NeedsWater(reading, setting).value)
                  && r.value.growLight.active == Flag(NeedsLight(reading, setting, now).value)
                  && r.value.waterPump.duration ==
                       (if NeedsWater(reading, setting).value then Get(setting, "watering_duration", Num(0.0)) else Num(0.0)))
  {
  }

  function Min(a: nat, b: nat): nat { if a < b then a else b }

  /** The result for each (reading, settings) pair, zipped by position: as many as the shorter list. */
  ghost function PairResults(readings: seq<Dict>, settings: seq<Dict>, now: int): (rs: seq<Result<Decision>>)
    ensures |rs| == Min(|readings|, |settings|)
    ensures forall i :: 0 <= i < |rs| ==> rs[i] == PlantDecision(readings[i], settings[i], now)
  {
    seq(Min(|readings|, |settings|), i requires 0 <= i < Min(|readings|, |settings|) => PlantDecision(readings[i], settings[i], now))
  }

  /**
   * What a batch yields from its per-pair results when the first error aborts
   * it: either every decision, in order, or the error of the first pair that
   * raises.
   */
  ghost predicate BatchOutcome(results: seq<Result<Decision>>, r: Result<seq<Decision>>) {
    match r
    case Ok(ds) =>
      && |ds| == |results|
      && forall i :: 0 <= i < |results| ==> results[i] == Ok(ds[i])
    case Err(e) =>
      exists k ::
        && 0 <= k < |results|
        && results[k] == Err(e)
        && forall j :: 0 <= j < k ==> results[j].Ok?
  }

  /** What the rule-based strategy yields for readings and settings zipped by position. */
  ghost predicate RuleBasedOutcome(readings: seq<Dict>, settings: seq<Dict>, now: int, r: Result<seq<Decision>>) {
    BatchOutcome(PairResults(readings, settings, now), r)
  }

  /** The rule-based strategy, one decision per (reading, settings) pair. */
  method GetRuleBasedDecisions(readings: seq<Dict>, settings: seq<Dict>, now: int) returns (r: Result<seq<Decision>>)
    ensures RuleBasedOutcome(readings, settings, now, r)
  {
    var results: seq<Decision> := [];
    var n := Min(|readings|, |settings|);
    ghost var pairs := PairResults(readings, settings, now);
    var i := 0;
    while i < n
      invariant 0 <= i <= n
      invariant |results| == i
      invariant forall j :: 0 <= j < i ==> pairs[j] == Ok(results[j])
    {
      var decision := PlantDecision(readings[i], settings[i], now);
      if decision.Err? {
        r := Err(decision.error);
        assert pairs[i] == Err(r.error);
        return;
      }
      forall j | 0 <= j < i + 1
        ensures pairs[j] == Ok((results + [decision.value])[j])
      {
        if j < i {
          assert (results + [decision.value])[j] == results[j];
        }
      }
      results := results + [decision.value];
      i := i + 1;
    }
    return Ok(results);
  }

  /**
   * The model-based decision for one settings record: the pump fields are read
   * from the settings record (key "water_pump_active", default False, and the
   * watering duration, default 0, whether or not the pump is active); only the
   * light comes from the prediction for this plant, default False.
   */
  function MlDecision(setting: Dict, predictions: Predictions): (d: Decision)
    ensures d.plantId == Get(setting, "plant_id", Null)
    ensures d.waterPump == WaterPump(Get(setting, "water_pump_active", Flag(false)), Get(setting, "watering_duration", Num(0.0)))
    ensures Get(setting, "plant_id", Null) !in predictions ==> d.growLight.active == Flag(false)
    ensures Get(setting, "plant_id", Null) in predictions ==>
              d.growLight.active == Get(predictions[Get(setting, "plant_id", Null)], "needs_light", Flag(false))
  {
    var plantId := Get(setting, "plant_id", Null);
    var plantPredictions := if plantId in predictions then predictions[plantId] else map[];
    Decision(
      plantId,
      WaterPump(Get(setting, "water_pump_active", Flag(false)), Get(setting, "watering_duration", Num(0.0))),
      GrowLight(Get(plantPredictions, "needs_light", Flag(false))))
  }

  /** The model-based strategy, one decision per settings record, in order. */
  method GetMlBasedAutomation(predictions: Predictions, settings: seq<Dict>) returns (ds: seq<Decision>)
    ensures |ds| == |settings|
    ensures forall i :: 0 <= i < |settings| ==> ds[i] == MlDecision(settings[i], predictions)
  {
    ds := [];
    for i := 0 to |settings|
      invariant |ds| == i
      invariant forall j :: 0 <= j < i ==> ds[j] == MlDecision(settings[j], predictions)
    {
      ds := ds + [MlDecision(settings[i], predictions)];
    }
  }

  function MlEnabled(setting: Dict): (v: Value) { Get(setting, "ml_enabled", Flag(false)) }

  /** `any(setting.get("ml_enabled", False) for setting in settings)` */
  function AnyMlEnabled(settings: seq<Dict>): (r: bool)
    ensures r <==> exists i :: 0 <= i < |settings| && Truthy(MlEnabled(settings[i]))
  {
    if settings == [] then false
    else if Truthy(MlEnabled(settings[0])) then true
    else
      var rest := AnyMlEnabled(settings[1..]);
      assert forall i :: 1 <= i < |settings| ==> settings[i] == settings[1..][i - 1];
      assert rest ==> exists i :: 0 < i < |settings| && Truthy(MlEnabled(settings[i])) by {
        if rest {
          var i :| 0 <= i < |settings| - 1 && Truthy(MlEnabled(settings[1..][i]));
          assert settings[i + 1] == settings[1..][i];
        }
      }
      rest
  }

  /**
   * Strategy selection for a whole batch: the model-based strategy exactly when
   * predictions are present and some settings record has ML enabled; the
   * rule-based strategy otherwise.
   */
  method GetControlDecisions(readings: seq<Dict>, settings: seq<Dict>, predictions: Predictions, now: int)
    returns (r: Result<seq<Decision>>)
    ensures (|predictions| > 0 && exists i :: 0 <= i < |settings| && Truthy(MlEnabled(settings[i]))) ==>
              && r.Ok?
              && |r.value| == |settings|
              && forall i :: 0 <= i < |settings| ==> r.value[i] == MlDecision(settings[i], predictions)
    ensures !(|predictions| > 0 && exists i :: 0 <= i < |settings| && Truthy(MlEnabled(settings[i]))) ==>
              RuleBasedOutcome(readings, settings, now, r)
  {
    if |predictions| > 0 && AnyMlEnabled(settings) {
      var ds := GetMlBasedAutomation(predictions, settings);
      r := Ok(ds);
    } else {
      r := GetRuleBasedDecisions(readings, settings, now);
    }
  }

  /** A batch's outcome is determined by its per-pair results. */
  lemma BatchOutcomeUnique(results: seq<Result<Decision>>, r1: Result<seq<Decision>>, r2: Result<seq<Decision>>)
    requires BatchOutcome(results, r1) && BatchOutcome(results, r2)
    ensures r1 == r2
  {
    if r1.Ok? && r2.Ok? {
      forall i | 0 <= i < |results| ensures r1.value[i] == r2.value[i] {
        assert Ok(r1.value[i]) == results[i] == Ok(r2.value[i]);
      }
      assert r1.value == r2.value;
    } else if r1.Ok? != r2.Ok? {
      // one outcome says every pair succeeds, the other names a pair that raises
      assert false;
    } else {
      var k1 :| 0 <= k1 < |results| && results[k1] == Err(r1.error) && forall j :: 0 <= j < k1 ==> results[j].Ok?;
      var k2 :| 0 <= k2 < |results| && results[k2] == Err(r2.error) && forall j :: 0 <= j < k2 ==> results[j].Ok?;
      // each names the first pair that raises, so both name the same pair
      if k1 < k2 {
        assert false;
      } else if k2 < k1 {
        assert false;
      }
    }
  }

  /** The outcome of the rule-based strategy is determined by its inputs. */
  lemma RuleBasedOutcomeUnique(readings: seq<Dict>, settings: seq<Dict>, now: int, r1: Result<seq<Decision>>, r2: Result<seq<Decision>>)
    requires RuleBasedOutcome(readings, settings, now, r1) && RuleBasedOutcome(readings, settings, now, r2)
    ensures r1 == r2
  {
    BatchOutcomeUnique(PairResults(readings, settings, now), r1, r2);
  }

  /** A batch succeeds exactly when none of its pairs raises. */
  lemma BatchOkIffNoPairFails(results: seq<Result<Decision>>, r: Result<seq<Decision>>)
    requires BatchOutcome(results, r)
    ensures r.Ok? <==> forall i :: 0 <= i < |results| ==> results[i].Ok?
  {
    if r.Err? {
      var k :| 0 <= k < |results| && results[k] == Err(r.error);
    }
  }

  /** The rule-based strategy succeeds exactly when no pair of the batch raises. */
  lemma RuleBasedOkIffNoPairFails(readings: seq<Dict>, settings: seq<Dict>, now: int, r: Result<seq<Decision>>)
    requires RuleBasedOutcome(readings, settings, now, r)
    ensures r.Ok? <==> forall i :: 0 <= i < Min(|readings|, |settings|) ==> PlantDecision(readings[i], settings[i], now).Ok?
  {
    BatchOkIffNoPairFails(PairResults(readings, settings, now), r);
  }

  /** Outside its light schedule a plant never gets light, whatever its light level. */
  lemma OutsideScheduleNoLight(reading: Dict, setting: Dict, now: int, start: int, end: int)
    requires ScheduleBound(setting, "light_schedule_start") == Some(start)
    requires ScheduleBound(setting, "light_schedule_end") == Some(end)
    requires now < start || end < now
    ensures NeedsLight(reading, setting, now) == Ok(false)
  {
  }

  /** Inside the schedule, with numeric light values, light is needed exactly below the threshold. */
  lemma InsideScheduleLightBelowThreshold(reading: Dict, setting: Dict, now: int, start: int, end: int)
    requires ScheduleBound(setting, "light_schedule_start") == Some(start)
    requires ScheduleBound(setting, "light_schedule_end") == Some(end)
    requires start <= now <= end
    requires Number(LightLevel(reading)).Some? && Number(LightThreshold(setting)).Some?
    ensures NeedsLight(reading, setting, now) == Ok(Number(LightLevel(reading)).value < Number(LightThreshold(setting)).value)
  {
  }

  /**
   * With both schedule bounds given as strings and numeric light values, a
   * light level at or above the threshold never needs light, at any time.
   */
  lemma LightAtThresholdNoLight(reading: Dict, setting: Dict, now: int)
    requires Get(setting, "light_schedule_start", Text("")).Text? && Get(setting, "light_schedule_end", Text("")).Text?
    requires Number(LightLevel(reading)).Some? && Number(LightThreshold(setting)).Some?
    requires Number(LightThreshold(setting)).value <= Number(LightLevel(reading)).value
    ensures NeedsLight(reading, setting, now) == Ok(false)
  {
  }

  /** With ML selected, the pump decision does not depend on the predictions at all. */
  lemma MlPumpIgnoresPredictions(setting: Dict, p1: Predictions, p2: Predictions)
    ensures MlDecision(setting, p1).waterPump == MlDecision(setting, p2).waterPump
  {
  }
}

=== FILE: scenarios.dfy ===
/**
 * The repository's own test cases, stated as lemmas and methods over the
 * model: the controller's batch and single-test cases, the store's profile
 * and override cases, and the watering-event round trip.
 */
module Scenarios {
  import opened PyValues
  import opened DateTimes
  import opened PlantController
  import opened DbHandler
  import opened MlDbHandler

  const Morning := DateTime(2025, 2, 21, 14, 30, 22)
  const Afternoon := DateTime(2025, 2, 21, 15, 30, 22)
  const Evening := DateTime(2025, 2, 21, 16, 30, 22)

  /** The date part the controller tests write, "2025-02-21". */
  lemma TestDateText(dt: DateTime)
    requires ValidDateTime(dt) && dt.year == 2025 && dt.month == 2 && dt.day == 21
    ensures FormatDate(dt) == "2025-02-21"
  {
    assert Pad4(2025) == "2025";
    assert Pad2(2) == "02";
    assert Pad2(21) == "21";
  }

  lemma MorningText()
    ensures ValidDateTime(Morning) && FormatDateTime(Morning) == "2025-02-21 14:30:22"
  {
    TestDateText(Morning);
    assert FormatTime(Morning) == "14:30:22" by {
      assert Pad2(14) == "14";
      assert Pad2(30) == "30";
      assert Pad2(22) == "22";
    }
  }

  lemma EveningText()
    ensures ValidDateTime(Evening) && FormatDateTime(Evening) == "2025-02-21 16:30:22"
  {
    TestDateText(Evening);
    assert FormatTime(Evening) == "16:30:22" by {
      assert Pad2(16) == "16";
      assert Pad2(30) == "30";
      assert Pad2(22) == "22";
    }
  }

  /** A reading record as the controller tests build it. */
  function Reading(id: real, plantId: real, moisture: real, temperature: real, humidity: real, light: real): Dict {
    map[
      "id" := Num(id), "plant_id" := Num(plantId), "moisture" := Num(moisture), "temperature" := Num(temperature),
      "humidity" := Num(humidity), "light_level" := Num(light), "timestamp" := Text("2025-02-21 14:30:22")]
  }

  lemma ReadingFields(id: real, plantId: real, moisture: real, temperature: real, humidity: real, light: real)
    ensures var d := Reading(id, plantId, moisture, temperature, humidity, light);
            && Moisture(d) == Num(moisture) && LightLevel(d) == Num(light) && Get(d, "plant_id", Null) == Num(plantId)
  {
  }

  lemma SettingFields(plantId: real, moistureThreshold: real, lightThreshold: real, wateringDuration: real, start: string, end: string,
                      extra: Dict)
    ensures var d := Setting(plantId, moistureThreshold, lightThreshold, wateringDuration, start, end, extra);
            && MoistureThreshold(d) == Num(moistureThreshold) && LightThreshold(d) == Num(lightThreshold)
            && Get(d, "watering_duration", Num(0.0)) == Num(wateringDuration)
            && Get(d, "light_schedule_start", Text("")) == Text(start) && Get(d, "light_schedule_end", Text("")) == Text(end)
  {
  }

  /**
   * A settings record as the controller tests build it, with the given light
   * schedule; `extra` holds the keys only some records carry (plant 101's
   * "light_duration"), which no decision reads.
   */
  function Setting(plantId: real, moistureThreshold: real, lightThreshold: real, wateringDuration: real, start: string, end: string,
                   extra: Dict): Dict {
    extra + map[
      "plant_id" := Num(plantId), "moisture_threshold" := Num(moistureThreshold),
      "light_threshold" := Num(lightThreshold), "watering_duration" := Num(wateringDuration),
      "light_schedule_start" := Text(start), "light_schedule_end" := Text(end),
      "plant_type" := Text("herbs"), "ml_enabled" := Flag(false)]
  }

  /**
   * The rule-based batch: both plants sit exactly at their moisture
   * threshold, so both pumps run, for 5 and 3 seconds; both light levels
   * equal their thresholds, so neither light is on. This holds at any time
   * and for any schedule strings, the tests' 14:30:22 to 16:30:22 included;
   * by `RuleBasedOutcomeUnique` it is the only outcome.
   */
  lemma RuleBasedBatch(start: string, end: string, now: int)
    ensures RuleBasedOutcome(
              [Reading(1.0, 101.0, 75.0, 65.0, 80.0, 85.0), Reading(2.0, 102.0, 55.0, 40.0, 70.0, 90.0)],
              [Setting(101.0, 75.0, 85.0, 5.0, start, end, LightDuration), Setting(102.0, 55.0, 90.0, 3.0, start, end, map[])], now,
              Ok([Decision(Num(101.0), WaterPump(Flag(true), Num(5.0)), GrowLight(Flag(false))),
                  Decision(Num(102.0), WaterPump(Flag(true), Num(3.0)), GrowLight(Flag(false)))]))
  {
    PlantAtThresholds(1.0, 101.0, 75.0, 65.0, 80.0, 85.0, 5.0, start, end, LightDuration, now);
    PlantAtThresholds(2.0, 102.0, 55.0, 40.0, 70.0, 90.0, 3.0, start, end, map[], now);
    TwoPairsOutcome(
      Reading(1.0, 101.0, 75.0, 65.0, 80.0, 85.0), Reading(2.0, 102.0, 55.0, 40.0, 70.0, 90.0),
      Setting(101.0, 75.0, 85.0, 5.0, start, end, LightDuration), Setting(102.0, 55.0, 90.0, 3.0, start, end, map[]), now,
      Decision(Num(101.0), WaterPump(Flag(true), Num(5.0)), GrowLight(Flag(false))),
      Decision(Num(102.0), WaterPump(Flag(true), Num(3.0)), GrowLight(Flag(false))));
  }

  /** The key only plant 101's settings carry. */
  const LightDuration: Dict := map["light_duration" := Num(5.0)]

  /** A test plant whose moisture and light level both equal its thresholds. */
  lemma PlantAtThresholds(id: real, plantId: real, level: real, temperature: real, humidity: real, light: real,
                          duration: real, start: string, end: string, extra: Dict, now: int)
    ensures PlantDecision(Reading(id, plantId, level, temperature, humidity, light),
                          Setting(plantId, level, light, duration, start, end, extra), now) ==
            Ok(Decision(Num(plantId), WaterPump(Flag(true), Num(duration)), GrowLight(Flag(false))))
  {
    ReadingFields(id, plantId, level, temperature, humidity, light);
    SettingFields(plantId, level, light, duration, start, end, extra);
    WaterAtThresholdNoLight(Reading(id, plantId, level, temperature, humidity, light),
                            Setting(plantId, level, light, duration, start, end, extra), now);
  }

  lemma TwoPairsOutcome(r0: Dict, r1: Dict, s0: Dict, s1: Dict, now: int, d0: Decision, d1: Decision)
    requires PlantDecision(r0, s0, now) == Ok(d0) && PlantDecision(r1, s1, now) == Ok(d1)
    ensures RuleBasedOutcome([r0, r1], [s0, s1], now, Ok([d0, d1]))
  {
    var pairs := PairResults([r0, r1], [s0, s1], now);
    assert pairs[0] == Ok(d0) && pairs[1] == Ok(d1);
  }

  /** The batch test as the caller sees it: the rule-based strategy's decisions for the two plants. */
  method TestRuleBasedDecisions(start: string, end: string, now: int) returns (r: Result<seq<Decision>>)
    ensures r == Ok([Decision(Num(101.0), WaterPump(Flag(true), Num(5.0)), GrowLight(Flag(false))),
                     Decision(Num(102.0), WaterPump(Flag(true), Num(3.0)), GrowLight(Flag(false)))])
  {
    var readings := [Reading(1.0, 101.0, 75.0, 65.0, 80.0, 85.0), Reading(2.0, 102.0, 55.0, 40.0, 70.0, 90.0)];
    var settings := [Setting(101.0, 75.0, 85.0, 5.0, start, end, LightDuration), Setting(102.0, 55.0, 90.0, 3.0, start, end, map[])];
    r := GetRuleBasedDecisions(readings, settings, now);
    RuleBasedBatch(start, end, now);
    RuleBasedOutcomeUnique(readings, settings, now, r,
      Ok([Decision(Num(101.0), WaterPump(Flag(true), Num(5.0)), GrowLight(Flag(false))),
          Decision(Num(102.0), WaterPump(Flag(true), Num(3.0)), GrowLight(Flag(false)))]));
  }

  /** A pair whose moisture is at its threshold and whose light level is at its threshold. */
  lemma WaterAtThresholdNoLight(reading: Dict, setting: Dict, now: int)
    requires Number(Moisture(reading)).Some? && Number(MoistureThreshold(setting)).Some?
    requires Number(Moisture(reading)).value <= Number(MoistureThreshold(setting)).value
    requires Get(setting, "light_schedule_start", Text("")).Text? && Get(setting, "light_schedule_end", Text("")).Text?
    requires Number(LightLevel(reading)).Some? && Number(LightThreshold(setting)).Some?
    requires Number(LightThreshold(setting)).value <= Number(LightLevel(reading)).value
    ensures PlantDecision(reading, setting, now) ==
            Ok(Decision(Get(reading, "plant_id", Null),
                        WaterPump(Flag(true), Get(setting, "watering_duration", Num(0.0))),
                        GrowLight(Flag(false))))
  {
    LightAtThresholdNoLight(reading, setting, now);
    PlantDecisionFields(reading, setting, now);
  }

  /** At or below the threshold the plant needs water; above it, not. */
  lemma NeedsWaterCases()
    ensures NeedsWater(map["moisture" := Num(70.0)], map["moisture_threshold" := Num(75.0)]) == Ok(true)
    ensures NeedsWater(map["moisture" := Num(80.0)], map["moisture_threshold" := Num(75.0)]) == Ok(false)
  {
  }

  function LightSetting(start: string, end: string): Dict {
    map["light_threshold" := Num(85.0), "light_schedule_start" := Text(start), "light_schedule_end" := Text(end)]
  }

  /**
   * At 15:30:22, inside the 14:30:22 to 16:30:22 schedule, a light level of
   * 80 against a threshold of 85 needs light and a level of 90 does not.
   */
  lemma NeedsLightCases()
    ensures NeedsLight(map["light_level" := Num(80.0)], LightSetting("2025-02-21 14:30:22", "2025-02-21 16:30:22"),
                       Instant(Afternoon, 0)) == Ok(true)
    ensures NeedsLight(map["light_level" := Num(90.0)], LightSetting("2025-02-21 14:30:22", "2025-02-21 16:30:22"),
                       Instant(Afternoon, 0)) == Ok(false)
  {
    var setting := LightSetting("2025-02-21 14:30:22", "2025-02-21 16:30:22");
    MorningText();
    EveningText();
    ParseFormatted(Morning);
    ParseFormatted(Evening);
    InsideScheduleLightBelowThreshold(map["light_level" := Num(80.0)], setting, Instant(Afternoon, 0),
                                      Instant(Morning, 0), Instant(Evening, 0));
    InsideScheduleLightBelowThreshold(map["light_level" := Num(90.0)], setting, Instant(Afternoon, 0),
                                      Instant(Morning, 0), Instant(Evening, 0));
  }

  /** Schedule bounds that are not datetimes make the answer false, at any time. */
  lemma InvalidScheduleNoLight(now: int)
    ensures NeedsLight(map["light_level" := Num(80.0)], LightSetting("invalid_datetime", "invalid_datetime"), now) == Ok(false)
  {
  }

  /** The default `plant_type` argument, "default", selects the generic profile's thresholds. */
  lemma DefaultTypeSettings(profiles: map<string, Profile>, plantId: Value, today: string)
    requires ProfilesInstalled(profiles)
    ensures var d := ResolvedSettings(profiles, plantId, Text("default"), map[], today);
            d["plant_type"] == Text("default") && d["moisture_threshold"] == Num(0.6) && d["light_threshold"] == Num(800.0)
  {
  }

  /** A tropical plant gets the tropical thresholds. */
  lemma TropicalTypeSettings(profiles: map<string, Profile>, plantId: Value, today: string)
    requires ProfilesInstalled(profiles)
    ensures var d := ResolvedSettings(profiles, plantId, Text("tropical"), map[], today);
            d["plant_type"] == Text("tropical") && d["moisture_threshold"] == Num(0.8) && d["light_threshold"] == Num(400.0)
  {
  }

  /** Overrides on a herb replace both thresholds and keep the herb profile's other values. */
  lemma HerbOverrides(profiles: map<string, Profile>, plantId: Value, today: string)
    requires ProfilesInstalled(profiles)
    ensures var d := ResolvedSettings(profiles, plantId, Text("herbs"),
                                      map["moisture_threshold" := Num(0.9), "light_threshold" := Num(1200.0)], today);
            && d["moisture_threshold"] == Num(0.9) && d["light_threshold"] == Num(1200.0)
            && d["watering_duration"] == Num(30.0)
            && d["light_schedule_start"] == Text(today + " 06:00:00")
  {
    var custom := map["moisture_threshold" := Num(0.9), "light_threshold" := Num(1200.0)];
    var base := ProfileSettings(plantId, Text("herbs"), Herbs, today);
    assert ProfileFor(profiles, Text("herbs")) == Herbs;
    OverridesReplaceOnlyTheirKeys(profiles, plantId, Text("herbs"), custom, today);
    assert "watering_duration" !in custom && "light_schedule_start" !in custom;
    assert base["watering_duration"] == Num(30.0) && base["light_schedule_start"] == Text(today + " 06:00:00");
  }

  /**
   * Settings written for a herb and read back: the type and thresholds come
   * back as written; a plant never written has no settings.
   */
  method SetThenGet(now: DateTime) returns (got: Option<Dict>, missing: Option<Dict>)
    requires ValidDateTime(now)
    ensures got.Some? && got.value.Keys == StoredSettingsKeys
    ensures got.value["plant_type"] == Text("herbs")
    ensures got.value["moisture_threshold"] == Num(0.6) && got.value["light_threshold"] == Num(800.0)
    ensures missing == None
  {
    var db := new DataBaseHandler(map[], map[], [], []);
    var settings := db.SetPlantSettings(Text("test_plant4"), Text("herbs"), map[], now);
    HerbSettingsStored(db.defaultPlantSettings, FormatDate(now));
    assert RowOf(settings).plantId == Text("test_plant4");
    got := db.GetPlantSettings(Text("test_plant4"));
    missing := db.GetPlantSettings(Text("nonexistent_plant"));
  }

  lemma HerbSettingsStored(profiles: map<string, Profile>, today: string)
    requires ProfilesInstalled(profiles)
    ensures var d := ResolvedSettings(profiles, Text("test_plant4"), Text("herbs"), map[], today);
            && d["plant_id"] == Text("test_plant4")
            && var back := RecordOf(RowOf(d));
               back["plant_type"] == Text("herbs") && back["moisture_threshold"] == Num(0.6) && back["light_threshold"] == Num(800.0)
  {
  }

  /** A stored reading keeps the plant id and the values it was given. */
  method StoreReading(now: DateTime) returns (r: Outcome, rows: seq<SensorRow>)
    ensures r == Pass
    ensures rows == [SensorRow(Text("test_plant1"), Num(0.5), Num(25.0), Num(60.0), Num(800.0), now)]
  {
    var db := new DataBaseHandler(map[], map[], [], []);
    var data := map["moisture" := Num(0.5), "temperature" := Num(25.0), "humidity" := Num(60.0), "light_level" := Num(800.0)];
    r := db.StoreSensorData(Text("test_plant1"), data, now);
    rows := db.sensorData;
  }

  /** The watering event test: opened with moisture 50 and duration 15, completed with moisture 80. */
  method WateringEventRoundTrip(now: DateTime) returns (r: Result<int>, events: map<int, WateringEvent>)
    ensures r.Ok? && r.value in events
    ensures events[r.value].plantId == Num(101.0)
    ensures events[r.value].moistureBefore == Num(50.0) && events[r.value].moistureAfter == Num(80.0)
    ensures events[r.value].wateringDuration == Num(15.0)
  {
    r, events := LogWatering(Num(101.0), Num(50.0), Num(15.0), Num(80.0), now);
  }
}

=== FILE: values.dfy ===
/**
 * The dynamic values the server passes around: decoded sensor payloads,
 * settings records and decisions are all flat key/value records whose
 * values are numbers, strings, booleans or None.
 */
module PyValues {

  /** A scalar field value. Integers and floats are both numbers (exact reals here). */
  datatype Value = Num(n: real) | Text(s: string) | Flag(b: bool) | Null

  /** A flat record keyed by field name. */
  type Dict = map<string, Value>

  /** The exceptions the modelled code can raise (and does not catch). */
  datatype Error =
    | TypeError                  // an ordering comparison between incomparable values, or strptime of a non-string
    | KeyError(key: string)      // `record[key]` on a missing key
    | IntegrityError             // a NOT NULL column given None

  datatype Option<T> = None | Some(value: T)

  datatype Result<T> = Ok(value: T) | Err(error: Error)

  /** Failure or success of an operation that returns nothing. */
  datatype Outcome = Pass | Fail(error: Error)

  /** `d.get(key, default)` */
  function Get(d: Dict, key: string, default: Value): (v: Value)
    ensures key in d ==> v == d[key]
    ensures key !in d ==> v == default
  {
    if key in d then d[key] else default
  }

  /** Truthiness of a value in a boolean context. */
  predicate Truthy(v: Value) {
    match v
    case Num(n) => n != 0.0
    case Text(s) => s != []
    case Flag(b) => b
    case Null => false
  }

  /** The numeric view of a value: booleans are the integers 0 and 1. */
  function Number(v: Value): (r: Option<real>)
    ensures r.Some? <==> v.Num? || v.Flag?
    ensures v.Num? ==> r == Some(v.n)
  {
    match v
    case Num(n) => Some(n)
    case Flag(b) => Some(if b then 1.0 else 0.0)
    case _ => None
  }

  /** Lexicographic order on strings, by code point. */
  predicate StrLess(a: string, b: string)
    decreases |a|
  {
    if a == [] then b != []
    else if b == [] then false
    else if a[0] != b[0] then a[0] < b[0]
    else StrLess(a[1..], b[1..])
  }

  lemma {:induction false} StrLessIrreflexive(a: string)
    ensures !StrLess(a, a)
    decreases |a|
  {
    if a != [] {
      StrLessIrreflexive(a[1..]);
    }
  }

  /** `a < b`: numbers with numbers, strings with strings; anything else raises TypeError. */
  function Less(a: Value, b: Value): (r: Result<bool>)
    ensures r.Err? <==> !((Number(a).Some? && Number(b).Some?) || (a.Text? && b.Text?))
    ensures Number(a).Some? && Number(b).Some? ==> r == Ok(Number(a).value < Number(b).value)
    ensures a.Text? && b.Text? ==> r == Ok(StrLess(a.s, b.s))
  {
    if Number(a).Some? && Number(b).Some? then Ok(Number(a).value < Number(b).value)
    else if a.Text? && b.Text? then Ok(StrLess(a.s, b.s))
    else Err(TypeError)
  }

  /** `a <= b`, with the same comparability rules as `Less`. */
  function LessOrEqual(a: Value, b: Value): (r: Result<bool>)
    ensures r.Err? <==> Less(a, b).Err?
    ensures Number(a).Some? && Number(b).Some? ==> r == Ok(Number(a).value <= Number(b).value)
    ensures a.Text? && b.Text? ==> r == Ok(StrLess(a.s, b.s) || a.s == b.s)
  {
    if Number(a).Some? && Number(b).Some? then Ok(Number(a).value <= Number(b).value)
    else if a.Text? && b.Text? then Ok(StrLess(a.s, b.s) || a.s == b.s)
    else Err(TypeError)
  }

  /** A value that can be ordered is never below itself, and always at or below itself. */
  lemma ComparisonReflexive(a: Value)
    requires Less(a, a).Ok?
    ensures Less(a, a) == Ok(false) && LessOrEqual(a, a) == Ok(true)
  {
    if a.Text? {
      StrLessIrreflexive(a.s);
    }
  }
}
